=== FILE: README.md ===
# TaskWave reminders and offline cache, modelled in Dafny

TaskWave is a to-do list delivered as an installable web app with a small push
server. This project models its three pieces of decision logic as pure
functions over immutable values:

- **The page's task store** (`js/app.js`, class `TaskWave`). The task list is a
  sequence of `Task(id, text, deadline, completed, created)` records. The model
  covers the add, edit-submit, delete and toggle operations; the
  completed/pending/all views; the stats counters; the "urgent" marking; and the
  once-a-minute reminder poll. The module `TaskApp` strings these together as a
  state machine whose state is the list, the `tasks` storage slot and the active filter.
- **The service worker** (`js/sw.js`). Cache storage is an insertion-ordered map
  from generation name to a cache, and each cache maps a request URL to a response.
  The install, activate and fetch handlers map (storage, event, network result)
  to (new storage, outcome). The push handler maps a push message to the
  notification it shows. The click handler picks the window to focus or the URL
  to open.
- **The notification server** (`server.js`). It stores subscriptions keyed by
  their serialization and arms reminders when a task is posted. A timer is the
  triple `(subscription, task, delay)` it was armed with. When a timer fires,
  the server builds the payload, and a send failure with HTTP 410 Gone
  (section 15.5.11 of RFC 9110) removes that subscription.

The clock (`Date.now()`), the network, the push service and the browser's
window list are all parameters. The module `Delivery` connects the server's
payload to the worker's push handler, so the notification a reminder produces
can be stated in terms of the posted task.

Files: `wrappers.dfy` (Option), `seqs.dfy` (order-preserving filter and its
lemmas), `ordered_map.dfy` (insertion-ordered map, which models both a JavaScript
`Map` and cache storage), `durations.dfy`, `task_store.dfy`, `task_views.dfy`,
`task_app.dfy`, `service_worker.dfy`, `sw_notifications.dfy`,
`reminder_server.dfy` and `delivery.dfy`.

## Behaviour as the code has it

Some of the code's behaviour differs from what its names and comments
suggest. The model follows the code:

- **Delays count from when the task is posted, not back from the deadline.**
  The comments `// Schedule 1-day notification` and `// Schedule 30-minute
  notification` (server.js:72, 77) and the message texts "tomorrow" and "in 30
  minutes" read as reminders 24 h and 30 min before the deadline. The code
  arms a 24 h timer when the deadline is more than 24 h away and a 30 min
  timer when it is more than 30 min away, and both delays count from posting
  time. So a task due in 25 h arms both timers (`DelayBoundaries`,
  `PayRentScenario`), and its "in 30 minutes" push fires while the deadline
  is still more than 23.5 h away (`HalfHourReminderFiresEarly`).
- **Which window a click focuses.** The click handler walks the window list in
  the order the browser gives it and focuses the *last* focused client in that
  order, or the first client when none has focus. The model leaves that order
  to the browser. Any action other than `"open"` or the empty action only
  closes the notification, not just `"close"`.
- **When install fails.** `cache.addAll` rejects on a network failure, on any
  response whose status is not 2xx, and on a 206 Partial Content response. In
  every such case nothing is stored.
  However, `caches.open` has already created the (possibly empty) current
  generation.
- **Which caches answer a fetch.** `caches.match` searches every generation,
  in creation order, so before activation an old generation can still answer.
  Only GET requests match. `cache.put` refuses non-GET requests and 206
  responses, but stores error responses such as a 404; a refusal is not
  awaited, so the network response is still returned.
- **Reminders repeat.** The reminder poll keeps no suppression state. A task is
  reminded again at every poll until its deadline passes (`ReminderRefires`).

## Model

| member | source | states |
|---|---|---|
| TaskStore.FindIndex | js/app.js:77 | `find` by id: the index returned is the first task with that id, and there is none exactly when no task has the id |
| TaskStore.AddTask | js/app.js:58-66 | one record is appended at the end, incomplete, with the given text, deadline and the two clock readings; earlier tasks are unchanged |
| TaskStore.EditSubmit | js/app.js:76-99 | only text and deadline of the first task with the id change; id, completed and created are kept everywhere; an absent id changes nothing |
| TaskStore.DeleteTask | js/app.js:103-104 | every surviving task has a different id and came from the list; every task with a different id survives; an absent id is a no-op |
| TaskStore.ToggleComplete | js/app.js:110-117 | `completed` changes exactly at the first task with the id, all other fields everywhere are kept, an absent id changes nothing |
| TaskStore.DeleteKeepsOrder | js/app.js:104 | deletion distributes over concatenation and acts on single tasks by id, so survivors keep their original order |
| TaskStore.DeleteRemovesOne | js/app.js:104 | with unique ids, deleting a present id shortens the list by exactly one |
| TaskStore.AddThenDelete | js/app.js:103-104 | deleting the fresh id of a just-added task gives back the original list |
| TaskStore.AddKeepsUnique | js/app.js:58-66 | adding with an id not already in use keeps ids unique |
| TaskStore.MutationsKeepUnique | js/app.js:76-117 | delete, edit-submit and toggle keep ids unique |
| TaskStore.ToggleTwice | js/app.js:110-117 | toggling the same id twice restores the list |
| TaskStore.EditIdempotent | js/app.js:88-91 | submitting the same edit twice equals submitting it once |
| TaskViews.FilterView | js/app.js:183-197 | "completed" shows exactly the completed tasks, "pending" exactly the incomplete ones, any other value the whole list |
| TaskViews.ViewsPartition | js/app.js:188-197 | the completed and pending views split the list's multiset and their lengths add up to the list length |
| TaskViews.ViewKeepsOrder | js/app.js:134-143 | every view distributes over concatenation, so it preserves order |
| TaskViews.ComputeStats | js/app.js:202-205 | total is the list length, completed does not exceed total, total is completed plus pending, and the counters match the lengths of the two views |
| TaskViews.StatsAfterAdd | js/app.js:202-205 | adding raises total and pending by one and leaves completed unchanged |
| TaskViews.StatsAfterToggle | js/app.js:202-205 | toggling a present task moves exactly one task between completed and pending |
| TaskViews.DueReminders | js/app.js:233-235 | selects exactly the tasks that are incomplete, have a non-zero deadline and fall due within (0, 24 h] of now |
| TaskViews.CheckReminders | js/app.js:230-240 | the poll's walk over the list shows reminders for exactly the due tasks, in list order |
| TaskViews.Urgent | js/app.js:154 | the urgent marking covers every task a poll reminds about and every overdue incomplete task, and never a completed task or one more than a day away |
| TaskViews.RemindedAreUrgent | js/app.js:154 | every reminded task is also marked urgent |
| TaskViews.OverdueUrgentNotReminded | js/app.js:154 | an overdue incomplete task is urgent but never reminded |
| TaskViews.ReminderRefires | js/app.js:42 | a task a poll reminds about is reminded about again by every later poll, one minute apart, until its deadline passes, because no reminder is suppressed |
| TaskApp.Start | js/app.js:3 | the stored list is loaded, or the empty list when storage has none |
| TaskApp.Step | js/app.js:53-117 | an add, edit, delete or toggle leaves the list its store operation produces, with the storage slot equal to it; filter choice changes only the filter and never touches storage; an edit or toggle of an absent id changes nothing |
| TaskApp.ChooseFilterShowsView | js/app.js:120-144 | choosing a filter shows the unchanged list through that view, and later mutations are shown through the active view |
| TaskApp.StepKeepsUnique | js/app.js:53-117 | every user action keeps ids unique when the add's clock reading is fresh |
| TaskApp.StepKeepsCounters | js/app.js:226-228 | after every action storage reflects the list and the counters add up |
| ServiceWorker.Open | js/sw.js:15 | opening creates the generation empty when missing, placing it last in creation order, and otherwise changes nothing |
| ServiceWorker.MatchIn | js/sw.js:97 | the answer comes from the first generation, in creation order, holding the URL; there is none when no generation holds it |
| ServiceWorker.MatchUrl | js/sw.js:113 | a lookup answers with a stored response for the URL, and with nothing exactly when no generation holds it |
| ServiceWorker.AddAll | js/sw.js:18 | all-or-nothing: the result exists iff every URL fetched with a 2xx status other than 206; then every URL maps to its fetched response and other entries are kept |
| ServiceWorker.Install | js/sw.js:13-21 | install succeeds iff every one of the 7 assets fetches with a 2xx status other than 206; the current generation is opened, last in creation order if new, either way; on success the current generation holds each asset's response and keeps every earlier entry outside the manifest, with nothing else added; on failure no generation gains any entry; other generations are untouched |
| ServiceWorker.Activate | js/sw.js:24-36 | afterwards the generation names are the old ones intersected with the current name, and the current generation's contents are unchanged |
| ServiceWorker.ActivateIdempotent | js/sw.js:24-36 | activating twice equals activating once |
| ServiceWorker.OnFetch | js/sw.js:95-117 | a hit returns the cached response without the network and leaves storage unchanged; a miss with a network response returns it and stores it in the current generation only, which is opened last in creation order if new, other generations unchanged; a network failure gives navigations the cached root document and other requests nothing |
| ServiceWorker.Match | js/sw.js:97 | a request is answered only when it is a GET and some generation holds its URL, and then with a response stored for that URL |
| ServiceWorker.Storable | js/sw.js:105 | `put` accepts only GET requests and never a 206 response; unlike `addAll` it also keeps error responses |
| ServiceWorker.MatchAfterActivate | js/sw.js:97 | after activation a lookup is answered by the current generation alone |
| ServiceWorker.FetchThenHit | js/sw.js:100-107 | a storable response fetched on a miss is served from the cache by the next fetch of the same request |
| ServiceWorker.OfflineAfterInstall | js/sw.js:2-10 | after a successful install and activation, each manifest asset is served offline with the response fetched at install |
| ServiceWorker.OfflineNavigation | js/sw.js:110-115 | offline, an uncached navigation falls back to the cached root document and an uncached non-navigation gets nothing |
| WorkerNotifications.Or | js/sw.js:44-48 | JavaScript `||` on an optional string: the value when present and non-empty, otherwise the fallback |
| WorkerNotifications.OnPush | js/sw.js:39-67 | a notification is shown iff the push carries parseable data; its title and body are the message's; icon, badge and url fall back to defaults; the actions are exactly open then close |
| WorkerNotifications.PushNotificationComplete | js/sw.js:42-61 | every shown notification has a non-empty icon, badge and target URL and offers open then close |
| WorkerNotifications.PickClient | js/sw.js:79-86 | the chosen client is the last focused one in list order, or the first when none is focused |
| WorkerNotifications.OnNotificationClick | js/sw.js:70-92 | "open" or no action focuses the picked client, or opens the notification URL when there is no client; any other action only closes |
| ReminderServer.Serialize | server.js:28 | the key of a subscription whose fields hold no double quote reads back as that subscription |
| ReminderServer.SerializeInjective | server.js:28-29 | distinct subscriptions whose fields hold no double quote are stored under distinct keys |
| ReminderServer.OnSubscribe | server.js:26-36 | the store maps the descriptor's serialization to the descriptor, grows by at most one key (a new key goes last, an existing key keeps its place), keeps every key equal to its value's serialization, and replies 201 with the public key |
| ReminderServer.SubscribeIdempotent | server.js:28-29 | subscribing the same descriptor again leaves the store unchanged |
| ReminderServer.Delays | server.js:71-80 | the day delay is armed iff the deadline is more than 24 h away, the half-hour delay iff more than 30 min away; no other delays, no repeats, day first |
| ReminderServer.DayImpliesHalfHour | server.js:73-79 | the day reminder never comes without the half-hour one, so at most two are armed |
| ReminderServer.DelayBoundaries | server.js:73-79 | the comparisons are strict: exactly 24 h away arms only the half-hour timer and exactly 30 min away arms none; 25 h arms both, 20 h one, 20 min none |
| ReminderServer.ArmEach | server.js:71-81 | every listed subscription gets a timer for each delay `Delays` names, capturing the posted task; there are no other timers, and their number is the subscriptions times the delays |
| ReminderServer.OnTask | server.js:66-87 | replies 201 echoing the task id whether or not anything was armed; every stored subscription gets exactly the timers `Delays` names and no others exist; with a subscriber, a day timer exists iff the deadline is more than a day away and a half-hour timer iff it is more than 30 min away |
| ReminderServer.BuildPayload | server.js:41-50 | fixed title, icon and badge; the body is exactly `Task "<text>" is due ` followed by "tomorrow!" iff the delay is a day and "in 30 minutes!" otherwise; data is url "/" and the task's id |
| ReminderServer.Fire | server.js:52-60 | the payload is the task's reminder; a 410 failure removes exactly the subscription's key and keeps every other entry; success or any other failure leaves the store unchanged |
| ReminderServer.GoneRemovesOnlyThatSubscription | server.js:57-60 | after a 410 the failed subscription is held by no key, every other subscription remains, and keys still match their serializations |
| ReminderServer.OnlyGoneShrinks | server.js:57-60 | the store loses a key only on a 410 failure for a stored subscription |
| Delivery.Transmit | server.js:41-53 | the worker shows a notification with the payload's title, body and task id, and with its icon, badge and url when they are non-empty |
| Delivery.ReminderReachesWorker | server.js:41-50 | a fired reminder shows one notification titled "TaskWave Reminder", with url "/" and the task id, labelled "tomorrow" iff it is the day timer |
| Delivery.ClickReminderWithoutWindows | js/sw.js:88 | clicking a delivered reminder with no open window opens the root page |
| Delivery.PayRentScenario | server.js:71-86 | one subscriber and a task due in a day and a second: two timers (day, then half hour), the first saying "tomorrow" for task 7 |
| Delivery.HalfHourReminderFiresEarly | server.js:77-79 | for a task more than a day away, the "in 30 minutes" push fires while the deadline is still more than 23.5 h ahead |

## Left out

- DOM rendering, the modal, the install prompt and the permission prompt are left out because they are UI plumbing. `CheckReminders` returns the tasks it would show a notification for.
- Form wiring is left out, and with it a defect of the page. The form has a `submit` listener, `handleTaskSubmit` (js/app.js:26), and an `onsubmit` handler that `editTask` and `closeModal` set (js/app.js:88, 223). Once `onsubmit` has been set, every submission runs both. The listener runs first: it adds a task, and its `closeModal` resets the form and rebinds `onsubmit` to `handleTaskSubmit`. The second handler then adds a task with empty text and a `NaN` deadline, usually with the same `Date.now()` id. The edit closure is replaced before it runs, so submitting the editor adds a task instead of editing one. The model gives each handler as its own operation (`Add`, `Edit`) and does not model this dispatch, because `NaN` deadlines are outside its integer deadlines.
- `editTask` captures the task object when the editor opens. The model looks the task up by id at submit time, which is the same as long as the list is not changed while the editor is open.
- `localStorage` and JSON are left out. The `tasks` slot is modelled as holding exactly the list that was saved.
- Date parsing is left out. Deadlines and clock readings are integers of milliseconds, so unparsable dates (`NaN`) are not modelled.
- Express routing, body parsing, the static middleware, the 500 error responder, `app.listen` and `GET /api/vapidPublicKey` are left out as framework I/O. The public key is a parameter of `OnSubscribe`.
- VAPID key generation, payload encryption and the network send are left out as foreign calls. The send is an oracle returning success or a failure with an optional status code.
- Real timers are left out. `setTimeout` is the list of armed triples; when a timer fires, concurrently or otherwise, is not modelled. Timers are never cancelled, as in the code.
- `event.waitUntil`/`respondWith` lifetimes, `Response.clone`, `Vary` headers, URL resolution and request schemes are left out. The worker APIs `caches`, `fetch` and `clients` are replaced by values and oracles.
- The fetch handler does not await its `cache.put`. The model applies the put as part of the transition.
- `ReminderServer.Serialize` gives the descriptor's fields in a fixed order and does not escape strings, so its round trip is stated only for fields without a double quote, which push endpoints and base64url keys never contain.
- The worker's `vibrate` pattern is kept but nothing is stated about it. Console logging is left out.
- `ReminderServer.OnTask`: the contract states which timers are armed, not their order by subscription, because timers fire by delay, and only timers of equal delay fire in arming order. The lemma `ReminderServer.ArmEachFirst` states part of that order for `ArmEach`: the first `|Delays|` timers belong to the first subscription, in `Delays` order.

=== FILE: delivery.dfy ===
/**
 The path of a reminder from server.js to js/sw.js: the payload the server
 serializes is the message the worker's `push` handler parses, so the
 notification shown can be stated in terms of the posted task.
 */
module Delivery {
  import opened Wrappers
  import opened Durations
  import opened OrderedMaps
  import Seqs
  import opened ReminderServer
  import opened WorkerNotifications

  /**
   `JSON.stringify` on the server followed by `event.data.json()` in the worker:
   the worker shows a notification carrying the payload's title, body and task
   id, and its icon, badge and url whenever those are non-empty.
   */
  function Transmit(p: Payload): (d: PushData)
    ensures var shown := OnPush(d);
      && shown.Some?
      && shown.value.title == Some(p.title) && shown.value.body == Some(p.body)
      && shown.value.taskId == Some(p.taskId)
      && (p.icon != "" ==> shown.value.icon == p.icon)
      && (p.badge != "" ==> shown.value.badge == p.badge)
      && (p.url != "" ==> shown.value.url == p.url)
  {
    Json(PushMessage(Some(p.title), Some(p.body), Some(p.icon), Some(p.badge), Some(PushLinks(Some(p.url), Some(p.taskId)))))
  }

  /**
   A fired reminder shows one notification titled "TaskWave Reminder", linking to
   the root page, carrying the task's id, and labelled "tomorrow" exactly for the
   day-delay timer.
   */
  lemma ReminderReachesWorker(task: TaskSnapshot, delay: int)
    ensures var shown := OnPush(Transmit(BuildPayload(task, delay)));
      && shown.Some?
      && shown.value.title == Some(REMINDER_TITLE)
      && shown.value.url == "/"
      && shown.value.taskId == Some(task.id)
      && shown.value.icon == REMINDER_ICON && shown.value.badge == REMINDER_ICON
      && shown.value.actions == ACTIONS
      && shown.value.body.Some?
      && (Seqs.EndsWith(shown.value.body.value, "tomorrow!") <==> delay == DAY_MS)
  {
  }

  /** Clicking a delivered reminder when no window is open opens the root page. */
  method ClickReminderWithoutWindows(task: TaskSnapshot, delay: int) returns (e: ClickEffect)
    ensures e == OpenWindow("/")
  {
    var shown := OnPush(Transmit(BuildPayload(task, delay)));
    e := OnNotificationClick(shown.value, "", []);
  }

  /**
   One subscriber and a task due a day and a second from now: the code arms two
   timers for that subscriber, the day one first, whose push says "tomorrow" and
   carries task id 7.
   */
  lemma PayRentScenario(sub: Subscription, publicKey: string, now: int)
    ensures var store := OnSubscribe(Empty(), sub, publicKey).store;
      var task := TaskSnapshot(7, "Pay rent", now + DAY_MS + 1000);
      var reply := OnTask(store, task, now);
      && reply.taskId == 7
      && reply.armed == [Armed(sub, task, DAY_MS), Armed(sub, task, HALF_HOUR_MS)]
      && Seqs.EndsWith(BuildPayload(task, reply.armed[0].delay).body, "tomorrow!")
      && BuildPayload(task, reply.armed[0].delay).taskId == 7
  {
    var store := OnSubscribe(Empty(), sub, publicKey).store;
    assert store.keys == [Serialize(sub)];
    var task := TaskSnapshot(7, "Pay rent", now + DAY_MS + 1000);
    assert ArmEach(store.keys[1..], store.entries, task, now) == [];
  }

  /**
   The half-hour timer counts from the time the task was posted, not from the
   deadline: for a task more than a day away its "in 30 minutes" push fires while
   the deadline is still more than 23.5 hours ahead.
   */
  lemma HalfHourReminderFiresEarly(task: TaskSnapshot, now: int)
    requires task.deadline - now > DAY_MS
    ensures HALF_HOUR_MS in Delays(task.deadline, now)
    ensures Seqs.EndsWith(BuildPayload(task, HALF_HOUR_MS).body, "in 30 minutes!")
    ensures task.deadline - (now + HALF_HOUR_MS) > DAY_MS - HALF_HOUR_MS
  {
  }
}

=== FILE: durations.dfy ===
/** The fixed time spans, in milliseconds, shared by the page, the worker and the server. */
module Durations {
  /** 24 hours. */
  const DAY_MS: int := 86400000
  /** 30 minutes. */
  const HALF_HOUR_MS: int := 1800000
  /** The period of the page's reminder poll (`setInterval(..., 60000)`). */
  const POLL_MS: int := 60000
}

=== FILE: ordered_map.dfy ===
/**
 A map that remembers the order in which its keys were first inserted. It models
 both JavaScript's `Map` (whose `forEach` visits keys in insertion order) and the
 browser's cache storage (whose `keys()` lists cache names in creation order and
 whose `match` searches the caches in that order).
 */
module OrderedMaps {
  import Seqs

  datatype OrderedMap<K(==), V> = OrderedMap(keys: seq<K>, entries: map<K, V>) {

    /** Every key is listed exactly once, and exactly the listed keys have entries. */
    ghost predicate Valid() {
      && Seqs.Distinct(keys)
      && (forall i :: 0 <= i < |keys| ==> keys[i] in entries)
      && (forall k :: k in entries ==> k in keys)
    }

    /**
     `Map.prototype.set`: a new key goes to the end of the order, an existing key
     keeps its place and only its value changes.
     */
    function Set(k: K, v: V): (r: OrderedMap<K, V>)
      requires Valid()
      ensures r.Valid()
      ensures r.entries.Keys == entries.Keys + {k}
      ensures r.entries[k] == v
      ensures forall x :: x in entries && x != k ==> r.entries[x] == entries[x]
      ensures k in entries ==> r.keys == keys
      ensures k !in entries ==> r.keys == keys + [k]
    {
      if k in entries then OrderedMap(keys, entries[k := v])
      else OrderedMap(keys + [k], entries[k := v])
    }

    /** `Map.prototype.delete`: the key disappears, the remaining keys keep their order. */
    function Remove(k: K): (r: OrderedMap<K, V>)
      requires Valid()
      ensures r.Valid()
      ensures r.entries.Keys == entries.Keys - {k}
      ensures forall x :: x in r.entries ==> r.entries[x] == entries[x]
      ensures k !in entries ==> r == this
      ensures |r.keys| == |keys| - (if k in entries then 1 else 0)
    {
      if k !in entries then this
      else
        RemoveKeyFacts(keys, k);
        OrderedMap(Seqs.Filter(keys, Other(k)), entries - {k})
    }

    /** Removing every key of `ks` in turn, as a `Promise.all` over deletions does. */
    function RemoveAll(ks: seq<K>): (r: OrderedMap<K, V>)
      requires Valid()
      ensures r.Valid()
      ensures r.entries.Keys == entries.Keys - set x | x in ks
      ensures forall x :: x in r.entries ==> r.entries[x] == entries[x]
      decreases |ks|
    {
      if |ks| == 0 then this
      else Remove(ks[0]).RemoveAll(ks[1..])
    }
  }

  function Empty<K(==), V>(): (r: OrderedMap<K, V>)
    ensures r.Valid()
    ensures r.entries == map[]
  {
    OrderedMap([], map[])
  }

  /** The predicate "is not `k`". */
  function Other<K(==)>(k: K): K -> bool {
    x => x != k
  }

  /** Dropping one key that occurs once in a distinct list shortens it by one and keeps it distinct. */
  lemma {:induction false} RemoveKeyFacts<K>(keys: seq<K>, k: K)
    requires Seqs.Distinct(keys)
    requires k in keys
    ensures |Seqs.Filter(keys, Other(k))| == |keys| - 1
    ensures Seqs.Distinct(Seqs.Filter(keys, Other(k)))
    ensures k !in Seqs.Filter(keys, Other(k))
  {
    var rest := keys[1..];
    assert Seqs.Distinct(rest) by {
      forall i, j | 0 <= i < j < |rest| ensures rest[i] != rest[j] {
        assert rest[i] == keys[i + 1] && rest[j] == keys[j + 1];
      }
    }
    if keys[0] == k {
      forall j | 0 <= j < |rest| ensures Other(k)(rest[j]) {
        assert rest[j] == keys[j + 1];
      }
      Seqs.FilterKeepsAll(rest, Other(k));
    } else {
      RemoveKeyFacts(rest, k);
    }
    Seqs.FilterDistinct(keys, Other(k));
  }
}

=== FILE: reminder_server.dfy ===
/**
 The notification scheduling server of server.js: the subscription store, the
 rule that arms reminders when a task is posted, the push payload, and the
 removal of subscriptions the push service reports gone. Timers are modelled as
 the list of `(subscription, task, delay)` triples they were armed with; the
 push send is an oracle whose result is passed in.
 */
module ReminderServer {
  import opened Wrappers
  import opened OrderedMaps
  import opened Durations
  import Seqs

  /** A browser push subscription, opaque to the server. */
  datatype Subscription = Subscription(endpoint: string, p256dh: string, auth: string)

  const ENDPOINT_LEAD: string := "{\"endpoint\":\""
  const KEYS_LEAD: string := "\",\"keys\":{\"p256dh\":\""
  const AUTH_LEAD: string := "\",\"auth\":\""
  const CLOSE: string := "\"}}"

  /** A string with no double quote: JSON writes it without escapes, and it ends at the next quote. */
  predicate QuoteFree(s: string) {
    forall i :: 0 <= i < |s| ==> s[i] != '"'
  }

  /** Push endpoints and base64url keys contain no double quote. */
  predicate PlainSubscription(sub: Subscription) {
    QuoteFree(sub.endpoint) && QuoteFree(sub.p256dh) && QuoteFree(sub.auth)
  }

  /**
   `JSON.stringify(subscription)`, the key of the subscription store. Reading
   the text back gives the subscription, so distinct subscriptions get distinct keys.
   */
  function Serialize(sub: Subscription): (r: string)
    ensures PlainSubscription(sub) ==> Parse(r) == Some(sub)
  {
    var r := ENDPOINT_LEAD + sub.endpoint + KEYS_LEAD + sub.p256dh + AUTH_LEAD + sub.auth + CLOSE;
    assert r == ENDPOINT_LEAD + sub.endpoint + (KEYS_LEAD + sub.p256dh + (AUTH_LEAD + sub.auth + CLOSE));
    if PlainSubscription(sub) then
      ParseFields(sub.endpoint, sub.p256dh, sub.auth);
      r
    else r
  }

  /** The position of the first double quote in `s`, if any. */
  function FirstQuote(s: string): (r: Option<nat>)
    ensures r.Some? ==> r.value < |s| && s[r.value] == '"' && QuoteFree(s[..r.value])
    ensures r.None? ==> QuoteFree(s)
  {
    if |s| == 0 then None
    else if s[0] == '"' then Some(0)
    else match FirstQuote(s[1..])
      case None => None
      case Some(i) =>
        assert s[..i + 1] == [s[0]] + s[1..][..i];
        Some(i + 1)
  }

  /** Reads one string field: `s` begins with `lead`, the value runs to the next quote, and the rest starts there. */
  function ReadField(s: string, lead: string): (r: Option<(string, string)>)
    ensures r.Some? ==> QuoteFree(r.value.0) && s == lead + r.value.0 + r.value.1
  {
    if |lead| <= |s| && s[..|lead|] == lead then
      var tail := s[|lead|..];
      match FirstQuote(tail)
      case None => None
      case Some(i) =>
        assert s == lead + tail[..i] + tail[i..];
        Some((tail[..i], tail[i..]))
    else None
  }

  /** Reads a serialized subscription back, field by field. */
  function Parse(s: string): (r: Option<Subscription>)
    ensures r.Some? ==> PlainSubscription(r.value)
  {
    match ReadField(s, ENDPOINT_LEAD)
    case None => None
    case Some((endpoint, afterEndpoint)) =>
      match ReadField(afterEndpoint, KEYS_LEAD)
      case None => None
      case Some((p256dh, afterKey)) =>
        match ReadField(afterKey, AUTH_LEAD)
        case None => None
        case Some((auth, afterAuth)) =>
          if afterAuth == CLOSE then Some(Subscription(endpoint, p256dh, auth)) else None
  }

  lemma {:induction false} FirstQuoteAfter(v: string, rest: string)
    requires QuoteFree(v) && |rest| > 0 && rest[0] == '"'
    ensures FirstQuote(v + rest) == Some(|v|)
  {
    if |v| == 0 {
      assert v + rest == rest;
    } else {
      assert (v + rest)[1..] == v[1..] + rest;
      FirstQuoteAfter(v[1..], rest);
    }
  }

  /** A quote-free value written after `lead` and followed by a quote is read back. */
  lemma ReadFieldOf(lead: string, v: string, rest: string)
    requires QuoteFree(v) && |rest| > 0 && rest[0] == '"'
    ensures ReadField(lead + v + rest, lead) == Some((v, rest))
  {
    var s := lead + v + rest;
    assert s[..|lead|] == lead;
    assert s[|lead|..] == v + rest;
    FirstQuoteAfter(v, rest);
    assert (v + rest)[..|v|] == v;
    assert (v + rest)[|v|..] == rest;
  }

  lemma ParseFields(endpoint: string, p256dh: string, auth: string)
    requires QuoteFree(endpoint) && QuoteFree(p256dh) && QuoteFree(auth)
    ensures Parse(ENDPOINT_LEAD + endpoint + (KEYS_LEAD + p256dh + (AUTH_LEAD + auth + CLOSE)))
      == Some(Subscription(endpoint, p256dh, auth))
  {
    ReadFieldOf(AUTH_LEAD, auth, CLOSE);
    ReadFieldOf(KEYS_LEAD, p256dh, AUTH_LEAD + auth + CLOSE);
    ReadFieldOf(ENDPOINT_LEAD, endpoint, KEYS_LEAD + p256dh + (AUTH_LEAD + auth + CLOSE));
  }

  /** Distinct subscriptions are stored under distinct keys. */
  lemma SerializeInjective(a: Subscription, b: Subscription)
    requires PlainSubscription(a) && PlainSubscription(b)
    requires a != b
    ensures Serialize(a) != Serialize(b)
  {
  }

  /** The process-wide `subscriptions` Map, in insertion order. */
  type Store = OrderedMap<string, Subscription>

  /** Every subscription is stored under its own serialization. */
  ghost predicate KeyedBySerialization(store: Store) {
    forall k :: k in store.entries ==> Serialize(store.entries[k]) == k
  }

  datatype SubscribeReply = SubscribeReply(status: int, message: string, publicKey: string)

  datatype SubscribeOutcome = SubscribeOutcome(store: Store, reply: SubscribeReply)

  /** `POST /api/subscribe`: stores the subscription under its serialization and returns the public key. */
  function OnSubscribe(store: Store, sub: Subscription, publicKey: string): (r: SubscribeOutcome)
    requires store.Valid()
    ensures r.store.Valid()
    ensures r.store.entries == store.entries[Serialize(sub) := sub]
    ensures |store.keys| <= |r.store.keys| <= |store.keys| + 1
    ensures Serialize(sub) in store.entries ==> r.store.keys == store.keys
    ensures Serialize(sub) !in store.entries ==> r.store.keys == store.keys + [Serialize(sub)]
    ensures KeyedBySerialization(store) ==> KeyedBySerialization(r.store)
    ensures r.reply.status == 201 && r.reply.publicKey == publicKey
  {
    SubscribeOutcome(store.Set(Serialize(sub), sub), SubscribeReply(201, "Successfully subscribed", publicKey))
  }

  /** Subscribing again with the same descriptor changes nothing. */
  lemma SubscribeIdempotent(store: Store, sub: Subscription, publicKey: string)
    requires store.Valid()
    ensures var once := OnSubscribe(store, sub, publicKey).store;
      OnSubscribe(once, sub, publicKey).store == once
  {
  }

  /** The body of `POST /api/task`; the deadline is already a number of milliseconds. */
  datatype TaskSnapshot = TaskSnapshot(id: int, text: string, deadline: int)

  /** One armed timer: the subscription and task it captured and its delay in milliseconds. */
  datatype Armed = Armed(sub: Subscription, task: TaskSnapshot, delay: int)

  /**
   The delays armed per subscription when `deadline` is posted at `now`: a day
   if the deadline is more than a day away, then half an hour if it is more than
   half an hour away. Both count from `now`.
   */
  function Delays(deadline: int, now: int): (r: seq<int>)
    ensures DAY_MS in r <==> deadline - now > DAY_MS
    ensures HALF_HOUR_MS in r <==> deadline - now > HALF_HOUR_MS
    ensures forall i :: 0 <= i < |r| ==> r[i] == DAY_MS || r[i] == HALF_HOUR_MS
    ensures Seqs.Distinct(r)
    ensures |r| == 2 ==> r == [DAY_MS, HALF_HOUR_MS]
  {
    (if deadline - now > DAY_MS then [DAY_MS] else [])
    + (if deadline - now > HALF_HOUR_MS then [HALF_HOUR_MS] else [])
  }

  /** The day reminder is never armed without the half-hour one, so 0, 1 or 2 are armed. */
  lemma DayImpliesHalfHour(deadline: int, now: int)
    ensures DAY_MS in Delays(deadline, now) ==> HALF_HOUR_MS in Delays(deadline, now)
    ensures |Delays(deadline, now)| <= 2
  {
  }

  /** Strict boundaries, and the delay count for a few deadlines. */
  lemma DelayBoundaries(now: int)
    ensures Delays(now + DAY_MS, now) == [HALF_HOUR_MS]
    ensures Delays(now + HALF_HOUR_MS, now) == []
    ensures Delays(now + 25 * 3600000, now) == [DAY_MS, HALF_HOUR_MS]
    ensures Delays(now + 20 * 3600000, now) == [HALF_HOUR_MS]
    ensures Delays(now + 20 * 60000, now) == []
  {
  }

  /**
   The `subscriptions.forEach` loop: for each key in order, the timers for that
   subscription. Every listed subscription gets exactly the timers `Delays` names.
   */
  function ArmEach(keys: seq<string>, entries: map<string, Subscription>, task: TaskSnapshot, now: int): (r: seq<Armed>)
    requires forall i :: 0 <= i < |keys| ==> keys[i] in entries
    ensures |r| == |keys| * |Delays(task.deadline, now)|
    ensures forall i :: 0 <= i < |r| ==>
      r[i].task == task && r[i].delay in Delays(task.deadline, now) && r[i].sub in entries.Values
    ensures forall k, d :: k in keys && d in Delays(task.deadline, now) ==> Armed(entries[k], task, d) in r
  {
    if |keys| == 0 then []
    else
      var sub := entries[keys[0]];
      var ds := Delays(task.deadline, now);
      var here := seq(|ds|, i requires 0 <= i < |ds| => Armed(sub, task, ds[i]));
      var rest := ArmEach(keys[1..], entries, task, now);
      ArmEachStep(keys, entries, task, now, here, rest);
      here + rest
  }

  /** The timers of the first key and those of the remaining keys together cover every listed key. */
  lemma ArmEachStep(keys: seq<string>, entries: map<string, Subscription>, task: TaskSnapshot, now: int,
                    here: seq<Armed>, rest: seq<Armed>)
    requires |keys| > 0 && forall i :: 0 <= i < |keys| ==> keys[i] in entries
    requires here == seq(|Delays(task.deadline, now)|, i requires 0 <= i < |Delays(task.deadline, now)| =>
      Armed(entries[keys[0]], task, Delays(task.deadline, now)[i]))
    requires forall k, d :: k in keys[1..] && d in Delays(task.deadline, now) ==> Armed(entries[k], task, d) in rest
    ensures forall k, d :: k in keys && d in Delays(task.deadline, now) ==> Armed(entries[k], task, d) in here + rest
  {
    var ds := Delays(task.deadline, now);
    forall k, d | k in keys && d in ds ensures Armed(entries[k], task, d) in here + rest {
      if k == keys[0] {
        var m :| 0 <= m < |ds| && ds[m] == d;
        assert here[m] == Armed(entries[k], task, d);
      } else {
        var j :| 0 <= j < |keys| && keys[j] == k;
        assert keys[1..][j - 1] == k;
      }
    }
  }

  datatype TaskReply = TaskReply(status: int, message: string, taskId: int, armed: seq<Armed>)

  /**
   `POST /api/task`: arms, for every stored subscription, exactly the timers
   `Delays` names, and echoes the task id.
   */
  function OnTask(store: Store, task: TaskSnapshot, now: int): (r: TaskReply)
    requires store.Valid()
    ensures r.status == 201 && r.taskId == task.id
    ensures |r.armed| == |store.entries| * |Delays(task.deadline, now)|
    ensures forall i :: 0 <= i < |r.armed| ==>
      r.armed[i].task == task
      && r.armed[i].delay in Delays(task.deadline, now)
      && r.armed[i].sub in store.entries.Values
    ensures forall k, d :: k in store.entries && d in Delays(task.deadline, now) ==>
      Armed(store.entries[k], task, d) in r.armed
    ensures |store.entries| > 0 ==>
      && ((exists i :: 0 <= i < |r.armed| && r.armed[i].delay == DAY_MS) <==> task.deadline - now > DAY_MS)
      && ((exists i :: 0 <= i < |r.armed| && r.armed[i].delay == HALF_HOUR_MS) <==> task.deadline - now > HALF_HOUR_MS)
  {
    StoreSize(store);
    var armed := ArmEach(store.keys, store.entries, task, now);
    if |store.entries| > 0 then
      ArmEachFirst(store.keys, store.entries, task, now);
      var ds := Delays(task.deadline, now);
      assert DAY_MS in ds ==> armed[0].delay == DAY_MS;
      assert HALF_HOUR_MS in ds ==> armed[|ds| - 1].delay == HALF_HOUR_MS;
      TaskReply(201, "Task notifications scheduled", task.id, armed)
    else
      TaskReply(201, "Task notifications scheduled", task.id, armed)
  }

  /** A valid store lists each of its keys once. */
  lemma StoreSize(store: Store)
    requires store.Valid()
    ensures |store.entries| == |store.keys|
  {
    var ks := set k | k in store.keys;
    assert ks == store.entries.Keys;
    DistinctCard(store.keys);
  }

  lemma {:induction false} DistinctCard(s: seq<string>)
    requires Seqs.Distinct(s)
    ensures |set k | k in s| == |s|
  {
    if |s| > 0 {
      var rest := s[1..];
      assert Seqs.Distinct(rest) by {
        forall i, j | 0 <= i < j < |rest| ensures rest[i] != rest[j] {
          assert rest[i] == s[i + 1] && rest[j] == s[j + 1];
        }
      }
      DistinctCard(rest);
      assert s[0] !in rest by {
        forall k | 0 <= k < |rest| ensures rest[k] != s[0] {
          assert rest[k] == s[k + 1];
        }
      }
      assert (set k | k in s) == (set k | k in rest) + {s[0]};
    }
  }

  /** The first subscription's timers come first, so each delay appears whenever there is a subscriber. */
  lemma ArmEachFirst(keys: seq<string>, entries: map<string, Subscription>, task: TaskSnapshot, now: int)
    requires forall i :: 0 <= i < |keys| ==> keys[i] in entries
    requires |keys| > 0
    ensures var r, ds := ArmEach(keys, entries, task, now), Delays(task.deadline, now);
      |ds| <= |r| && forall j :: 0 <= j < |ds| ==> r[j].delay == ds[j] && r[j].sub == entries[keys[0]]
  {
  }

  /** The push message sent when a timer fires. */
  datatype Payload = Payload(title: string, body: string, icon: string, badge: string, url: string, taskId: int)

  const REMINDER_TITLE: string := "TaskWave Reminder"
  const REMINDER_ICON: string := "/icons/icon-192x192.png"

  /** The coarse label of the body, chosen by comparing the timer's delay with a day. */
  function DueLabel(delay: int): string {
    if delay == DAY_MS then "tomorrow" else "in 30 minutes"
  }

  /** The payload built inside `scheduleNotification`. */
  function BuildPayload(task: TaskSnapshot, delay: int): (p: Payload)
    ensures p.title == REMINDER_TITLE
    ensures |p.body| > 15 + |task.text| && p.body[..15 + |task.text|] == "Task \"" + task.text + "\" is due "
    ensures Seqs.EndsWith(p.body, "tomorrow!") <==> delay == DAY_MS
    ensures delay != DAY_MS ==> Seqs.EndsWith(p.body, "in 30 minutes!")
    ensures |p.body| == 15 + |task.text| + (if delay == DAY_MS then 9 else 14)
    ensures p.icon == REMINDER_ICON && p.badge == REMINDER_ICON
    ensures p.url == "/" && p.taskId == task.id
  {
    var lead := "Task \"" + task.text + "\" is due ";
    var body := lead + DueLabel(delay) + "!";
    assert body == lead + (DueLabel(delay) + "!");
    Seqs.ConcatEndsWith(lead, DueLabel(delay) + "!");
    SuffixOfSuffix(lead, DueLabel(delay) + "!", "tomorrow!");
    Payload(REMINDER_TITLE, body, REMINDER_ICON, REMINDER_ICON, "/", task.id)
  }

  /** Whether `a + b` ends with a suffix no longer than `b` depends on `b` alone. */
  lemma SuffixOfSuffix(a: string, b: string, c: string)
    requires |c| <= |b|
    ensures Seqs.EndsWith(a + b, c) <==> Seqs.EndsWith(b, c)
  {
    assert (a + b)[|a + b| - |c|..] == b[|b| - |c|..];
  }

  /** The result of `webpush.sendNotification`: success, or a failure with an optional HTTP status. */
  datatype SendResult = Delivered | SendFailed(statusCode: Option<int>)

  /** HTTP 410 Gone (section 15.5.11 of RFC 9110): the subscription has expired. */
  const GONE: int := 410

  datatype FireOutcome = FireOutcome(payload: Payload, store: Store)

  /**
   A timer firing: the payload is sent to the captured subscription; a 410
   failure removes that subscription's key, anything else leaves the store alone.
   */
  function Fire(store: Store, a: Armed, result: SendResult): (r: FireOutcome)
    requires store.Valid()
    ensures r.payload == BuildPayload(a.task, a.delay)
    ensures r.store.Valid()
    ensures result == SendFailed(Some(GONE)) ==>
      && r.store.entries.Keys == store.entries.Keys - {Serialize(a.sub)}
      && forall k :: k in r.store.entries ==> r.store.entries[k] == store.entries[k]
    ensures result != SendFailed(Some(GONE)) ==> r.store == store
  {
    var payload := BuildPayload(a.task, a.delay);
    match result
    case SendFailed(Some(code)) =>
      if code == GONE then FireOutcome(payload, store.Remove(Serialize(a.sub)))
      else FireOutcome(payload, store)
    case _ => FireOutcome(payload, store)
  }

  /**
   With every subscription stored under its serialization, a 410 removes exactly
   the subscription that was sent to and no other: afterwards no key holds it,
   and every other subscription is still there.
   */
  lemma GoneRemovesOnlyThatSubscription(store: Store, a: Armed, other: Subscription)
    requires store.Valid()
    requires KeyedBySerialization(store)
    requires Serialize(other) in store.entries && Serialize(other) != Serialize(a.sub)
    ensures var after := Fire(store, a, SendFailed(Some(GONE))).store;
      && KeyedBySerialization(after)
      && a.sub !in after.entries.Values
      && Serialize(other) in after.entries
      && after.entries[Serialize(other)] == store.entries[Serialize(other)]
  {
  }

  /** The subscription set only shrinks through a 410 failure. */
  lemma OnlyGoneShrinks(store: Store, a: Armed, result: SendResult)
    requires store.Valid()
    requires Fire(store, a, result).store.entries.Keys != store.entries.Keys
    ensures result == SendFailed(Some(GONE))
    ensures Serialize(a.sub) in store.entries
  {
  }
}

=== FILE: seqs.dfy ===
/** Order-preserving selection from a sequence, the model of JavaScript's `Array.prototype.filter`. */
module Seqs {

  /** The elements of `s` that satisfy `p`, in their original order. */
  function Filter<T(==)>(s: seq<T>, p: T -> bool): (r: seq<T>)
    ensures |r| <= |s|
    ensures forall i :: 0 <= i < |r| ==> r[i] in s && p(r[i])
    ensures forall i :: 0 <= i < |s| && p(s[i]) ==> s[i] in r
    ensures multiset(r) <= multiset(s)
  {
    if |s| == 0 then []
    else
      var rest := Filter(s[1..], p);
      assert s == [s[0]] + s[1..];
      if p(s[0]) then [s[0]] + rest else rest
  }

  /** Filtering commutes with concatenation: the selection keeps the order of `a` before `b`. */
  lemma {:induction false} FilterConcat<T>(a: seq<T>, b: seq<T>, p: T -> bool)
    ensures Filter(a + b, p) == Filter(a, p) + Filter(b, p)
  {
    if |a| == 0 {
      assert a + b == b;
    } else {
      assert (a + b)[1..] == a[1..] + b;
      FilterConcat(a[1..], b, p);
    }
  }

  /** A one-element sequence is kept exactly when its element satisfies the predicate. */
  lemma FilterSingleton<T>(x: T, p: T -> bool)
    ensures Filter([x], p) == (if p(x) then [x] else [])
  {
    assert [x][1..] == [];
  }

  /** When every element satisfies `p`, filtering changes nothing. */
  lemma {:induction false} FilterKeepsAll<T>(s: seq<T>, p: T -> bool)
    requires forall i :: 0 <= i < |s| ==> p(s[i])
    ensures Filter(s, p) == s
  {
    if |s| > 0 {
      FilterKeepsAll(s[1..], p);
      assert s == [s[0]] + s[1..];
    }
  }

  /** Filtering by `p` and by its negation splits the multiset of `s` in two. */
  lemma FilterPartition<T>(s: seq<T>, p: T -> bool, q: T -> bool)
    requires forall x :: q(x) == !p(x)
    ensures multiset(Filter(s, p)) + multiset(Filter(s, q)) == multiset(s)
    ensures |Filter(s, p)| + |Filter(s, q)| == |s|
  {
    FilterPartitionBag(s, p, q);
    assert |multiset(Filter(s, p))| == |Filter(s, p)|;
    assert |multiset(Filter(s, q))| == |Filter(s, q)|;
  }

  lemma {:induction false} FilterPartitionBag<T>(s: seq<T>, p: T -> bool, q: T -> bool)
    requires forall x :: q(x) == !p(x)
    ensures multiset(Filter(s, p)) + multiset(Filter(s, q)) == multiset(s)
  {
    if |s| > 0 {
      var x, rest := s[0], s[1..];
      FilterPartitionBag(rest, p, q);
      var a, b := Filter(rest, p), Filter(rest, q);
      assert multiset(s) == multiset{x} + multiset(rest) by {
        assert s == [x] + rest;
      }
      if p(x) {
        assert Filter(s, p) == [x] + a && Filter(s, q) == b;
        assert multiset([x] + a) == multiset{x} + multiset(a);
      } else {
        assert Filter(s, p) == a && Filter(s, q) == [x] + b;
        assert multiset([x] + b) == multiset{x} + multiset(b);
      }
    }
  }

  /** Filtering keeps elements pairwise distinct. */
  lemma {:induction false} FilterDistinct<T>(s: seq<T>, p: T -> bool)
    requires Distinct(s)
    ensures Distinct(Filter(s, p))
  {
    if |s| > 0 {
      assert Distinct(s[1..]) by {
        forall i, j | 0 <= i < j < |s[1..]| ensures s[1..][i] != s[1..][j] {
          assert s[1..][i] == s[i + 1] && s[1..][j] == s[j + 1];
        }
      }
      FilterDistinct(s[1..], p);
      assert s[0] !in s[1..] by {
        forall k | 0 <= k < |s[1..]| ensures s[1..][k] != s[0] {
          assert s[1..][k] == s[k + 1];
        }
      }
    }
  }

  /** No element occurs twice. */
  predicate Distinct<T(==)>(s: seq<T>) {
    forall i, j :: 0 <= i < j < |s| ==> s[i] != s[j]
  }

  /** `s` ends with `suffix`. */
  predicate EndsWith<T(==)>(s: seq<T>, suffix: seq<T>) {
    |suffix| <= |s| && s[|s| - |suffix|..] == suffix
  }

  lemma ConcatEndsWith<T>(a: seq<T>, b: seq<T>)
    ensures EndsWith(a + b, b)
  {
    assert (a + b)[|a + b| - |b|..] == b;
  }
}

=== FILE: service_worker.dfy ===
/**
 The cache lifecycle of js/sw.js as pure state transitions over the browser's
 cache storage: `install` fills the current cache generation, `activate` purges
 every other generation, and `fetch` serves from the caches with a network
 fallback. The network is an oracle passed in by the caller.
 */
module ServiceWorker {
  import opened Wrappers
  import opened OrderedMaps
  import Seqs

  /** The name of the current cache generation. */
  const CACHE_NAME: string := "taskwave-v1"

  /** The fixed manifest cached at install time. */
  const ASSETS: seq<string> := [
    "/",
    "/index.html",
    "/css/style.css",
    "/js/app.js",
    "/manifest.json",
    "/icons/icon-192x192.png",
    "/icons/icon-512x512.png"
  ]

  /** The document served to navigations when the network is unreachable. */
  const OFFLINE_PAGE: string := "/index.html"

  datatype Response = Response(status: int, body: string)

  /** A request: its URL, HTTP method (`verb`) and mode (`"navigate"` for page loads). */
  datatype Request = Request(url: string, verb: string, mode: string)

  /** What `fetch` gives: a response (whatever its status) or a rejected promise. */
  datatype NetResult = Fetched(response: Response) | NetworkError

  /** One cache generation: responses keyed by request URL. */
  type Cache = map<string, Response>

  /** All cache generations, in creation order. */
  type CacheStorage = OrderedMap<string, Cache>

  /** `Response.ok`: a 2xx status. */
  predicate Ok(r: Response) {
    200 <= r.status <= 299
  }

  /** The contents of generation `name`, empty when it does not exist yet. */
  function CacheOf(s: CacheStorage, name: string): Cache {
    if name in s.entries then s.entries[name] else map[]
  }

  /** `caches.open(name)`: the generation is created, empty, if it does not exist. */
  function Open(s: CacheStorage, name: string): (r: CacheStorage)
    requires s.Valid()
    ensures r.Valid()
    ensures r.entries.Keys == s.entries.Keys + {name}
    ensures forall n :: n in s.entries ==> r.entries[n] == s.entries[n]
    ensures r.entries[name] == CacheOf(s, name)
    ensures name in s.entries ==> r == s
    ensures name !in s.entries ==> r.keys == s.keys + [name]
  {
    if name in s.entries then s else s.Set(name, map[])
  }

  /** Generation `names[i]` is the first in `names` holding `url`. */
  ghost predicate FirstHolding(names: seq<string>, caches: map<string, Cache>, url: string, i: int)
    requires forall k :: 0 <= k < |names| ==> names[k] in caches
  {
    0 <= i < |names| && url in caches[names[i]] && forall j :: 0 <= j < i ==> url !in caches[names[j]]
  }

  /** Searches the generations in order and answers from the first that holds `url`. */
  function MatchIn(names: seq<string>, caches: map<string, Cache>, url: string): (r: Option<Response>)
    requires forall k :: 0 <= k < |names| ==> names[k] in caches
    ensures r.None? <==> forall k :: 0 <= k < |names| ==> url !in caches[names[k]]
    ensures r.Some? ==> exists i :: FirstHolding(names, caches, url, i) && r.value == caches[names[i]][url]
  {
    if |names| == 0 then None
    else if url in caches[names[0]] then
      assert FirstHolding(names, caches, url, 0);
      Some(caches[names[0]][url])
    else
      FirstHoldingShift(names, caches, url);
      MatchIn(names[1..], caches, url)
  }

  /** Past a generation that lacks `url`, the first holder of the rest is the first holder overall. */
  lemma FirstHoldingShift(names: seq<string>, caches: map<string, Cache>, url: string)
    requires forall k :: 0 <= k < |names| ==> names[k] in caches
    requires |names| > 0 && url !in caches[names[0]]
    ensures forall i :: FirstHolding(names[1..], caches, url, i) ==>
      FirstHolding(names, caches, url, i + 1) && caches[names[1..][i]] == caches[names[i + 1]]
  {
    forall i | FirstHolding(names[1..], caches, url, i)
      ensures FirstHolding(names, caches, url, i + 1)
    {
      forall j | 0 <= j < i + 1 ensures url !in caches[names[j]] {
        if j > 0 {
          assert names[j] == names[1..][j - 1];
        }
      }
    }
  }

  /** `caches.match(url)` for a plain GET of `url`. */
  function MatchUrl(s: CacheStorage, url: string): (r: Option<Response>)
    requires s.Valid()
    ensures r.None? <==> forall n :: n in s.entries ==> url !in s.entries[n]
    ensures r.Some? ==> exists n :: n in s.entries && url in s.entries[n] && r.value == s.entries[n][url]
  {
    MatchIn(s.keys, s.entries, url)
  }

  /** `caches.match(request)`: only GET requests can match. */
  function Match(s: CacheStorage, req: Request): (r: Option<Response>)
    requires s.Valid()
    ensures r.None? <==> req.verb != "GET" || forall n :: n in s.entries ==> req.url !in s.entries[n]
    ensures r.Some? ==> req.verb == "GET"
    ensures r.Some? ==> exists n :: n in s.entries && req.url in s.entries[n] && r.value == s.entries[n][req.url]
  {
    if req.verb == "GET" then MatchUrl(s, req.url) else None
  }

  /**
   `cache.put` stores only GET requests and rejects partial (206) responses.
   Unlike `cache.addAll` it does not look at `ok`: error responses are stored.
   */
  function Storable(req: Request, resp: Response): (b: bool)
    ensures b ==> req.verb == "GET"
    ensures resp.status == 206 ==> !b
    ensures FetchedOk(Fetched(resp)) ==> (b <==> req.verb == "GET")
    ensures req.verb == "GET" && !Ok(resp) ==> b
  {
    req.verb == "GET" && resp.status != 206
  }

  datatype InstallOutcome = InstallOutcome(storage: CacheStorage, installed: bool)

  /** A fetch that `cache.addAll` accepts: the network answered with a 2xx status other than 206 Partial Content. */
  predicate FetchedOk(n: NetResult) {
    n.Fetched? && Ok(n.response) && n.response.status != 206
  }

  /** `cache.addAll(urls)`: every URL is fetched; if any fetch fails, nothing is stored. */
  function AddAll(cache: Cache, urls: seq<string>, net: string -> NetResult): (r: Option<Cache>)
    ensures r.Some? <==> forall i :: 0 <= i < |urls| ==> FetchedOk(net(urls[i]))
    ensures r.Some? ==> forall i :: 0 <= i < |urls| ==> urls[i] in r.value && r.value[urls[i]] == net(urls[i]).response
    ensures r.Some? ==> forall k :: k in r.value ==> k in cache || k in urls
    ensures r.Some? ==> forall k :: k in cache && k !in urls ==> k in r.value && r.value[k] == cache[k]
  {
    if |urls| == 0 then Some(cache)
    else
      var first := net(urls[0]);
      if !FetchedOk(first) then None
      else match AddAll(cache, urls[1..], net)
        case None => None
        case Some(c) => Some(c[urls[0] := first.response])
  }

  /**
   The `install` handler: opens the current generation (creating it if needed)
   and then adds the whole manifest, all or nothing.
   */
  function Install(s: CacheStorage, net: string -> NetResult): (r: InstallOutcome)
    requires s.Valid()
    ensures r.storage.Valid()
    ensures r.installed <==> forall i :: 0 <= i < |ASSETS| ==> FetchedOk(net(ASSETS[i]))
    ensures r.storage.entries.Keys == s.entries.Keys + {CACHE_NAME}
    ensures r.storage.keys == Open(s, CACHE_NAME).keys
    ensures forall n :: n in s.entries && n != CACHE_NAME ==> r.storage.entries[n] == s.entries[n]
    ensures r.installed ==> forall i :: 0 <= i < |ASSETS| ==>
      ASSETS[i] in r.storage.entries[CACHE_NAME] && r.storage.entries[CACHE_NAME][ASSETS[i]] == net(ASSETS[i]).response
    ensures r.installed ==> forall u :: u in r.storage.entries[CACHE_NAME] ==> u in CacheOf(s, CACHE_NAME) || u in ASSETS
    ensures r.installed ==> forall u :: u in CacheOf(s, CACHE_NAME) && u !in ASSETS ==>
      u in r.storage.entries[CACHE_NAME] && r.storage.entries[CACHE_NAME][u] == CacheOf(s, CACHE_NAME)[u]
    ensures !r.installed ==> r.storage.entries[CACHE_NAME] == CacheOf(s, CACHE_NAME)
  {
    var current := Open(s, CACHE_NAME);
    match AddAll(current.entries[CACHE_NAME], ASSETS, net)
    case None => InstallOutcome(current, false)
    case Some(c) => InstallOutcome(current.Set(CACHE_NAME, c), true)
  }

  /** The names `activate` deletes: every generation but the current one. */
  function StaleNames(s: CacheStorage): seq<string> {
    Seqs.Filter(s.keys, Other(CACHE_NAME))
  }

  /** The `activate` handler: deletes every generation whose name is not `CACHE_NAME`. */
  function Activate(s: CacheStorage): (r: CacheStorage)
    requires s.Valid()
    ensures r.Valid()
    ensures r.entries.Keys == s.entries.Keys * {CACHE_NAME}
    ensures CACHE_NAME in s.entries ==> r.entries[CACHE_NAME] == s.entries[CACHE_NAME]
  {
    StaleNamesAreTheOthers(s);
    s.RemoveAll(StaleNames(s))
  }

  lemma StaleNamesAreTheOthers(s: CacheStorage)
    requires s.Valid()
    ensures (set x | x in StaleNames(s)) == s.entries.Keys - {CACHE_NAME}
  {
    var stale := StaleNames(s);
    forall x | x in s.entries.Keys - {CACHE_NAME} ensures x in stale {
      var i :| 0 <= i < |s.keys| && s.keys[i] == x;
      assert Other(CACHE_NAME)(s.keys[i]);
    }
    forall x | x in stale ensures x in s.entries.Keys - {CACHE_NAME} {
      var i :| 0 <= i < |stale| && stale[i] == x;
      assert Other(CACHE_NAME)(stale[i]);
    }
  }

  datatype FetchOutcome = FetchOutcome(storage: CacheStorage, response: Option<Response>, usedNetwork: bool)

  /**
   The `fetch` handler. A hit in any generation is answered from the cache
   without touching the network. A miss goes to the network; a response is
   returned and, when storable, put into the current generation. A network
   failure answers navigations with the cached offline page and everything
   else with no response.
   */
  function OnFetch(s: CacheStorage, req: Request, net: NetResult): (r: FetchOutcome)
    requires s.Valid()
    ensures r.storage.Valid()
    ensures Match(s, req).Some? ==> r.response == Match(s, req) && !r.usedNetwork && r.storage == s
    ensures Match(s, req).None? ==> r.usedNetwork
    ensures Match(s, req).None? && net.Fetched? ==>
      && r.response == Some(net.response)
      && r.storage.entries.Keys == s.entries.Keys + {CACHE_NAME}
      && r.storage.keys == Open(s, CACHE_NAME).keys
      && (forall n :: n in s.entries && n != CACHE_NAME ==> r.storage.entries[n] == s.entries[n])
      && r.storage.entries[CACHE_NAME] ==
           (if Storable(req, net.response) then CacheOf(s, CACHE_NAME)[req.url := net.response]
            else CacheOf(s, CACHE_NAME))
    ensures Match(s, req).None? && net.NetworkError? ==>
      && r.storage == s
      && r.response == (if req.mode == "navigate" then MatchUrl(s, OFFLINE_PAGE) else None)
  {
    var hit := Match(s, req);
    if hit.Some? then FetchOutcome(s, hit, false)
    else match net
      case Fetched(resp) =>
        var current := Open(s, CACHE_NAME);
        var stored := if Storable(req, resp) then current.Set(CACHE_NAME, current.entries[CACHE_NAME][req.url := resp]) else current;
        FetchOutcome(stored, Some(resp), true)
      case NetworkError =>
        FetchOutcome(s, if req.mode == "navigate" then MatchUrl(s, OFFLINE_PAGE) else None, true)
  }

  /** Activating twice is activating once. */
  lemma ActivateIdempotent(s: CacheStorage)
    requires s.Valid()
    ensures Activate(Activate(s)) == Activate(s)
  {
    var a := Activate(s);
    if |StaleNames(a)| > 0 {
      assert false;
    }
  }

  /** After activation every lookup is answered by the current generation alone. */
  lemma MatchAfterActivate(s: CacheStorage, url: string)
    requires s.Valid()
    ensures MatchUrl(Activate(s), url) ==
      (if url in CacheOf(s, CACHE_NAME) then Some(CacheOf(s, CACHE_NAME)[url]) else None)
  {
  }

  /** A storable response fetched on a miss is served from the cache on the next request. */
  lemma FetchThenHit(s: CacheStorage, req: Request, resp: Response)
    requires s.Valid()
    requires Match(s, req).None?
    requires Storable(req, resp)
    ensures Match(OnFetch(s, req, Fetched(resp)).storage, req) == Some(resp)
  {
  }

  /**
   Once the manifest is installed and the worker activated, every manifest asset
   is served offline, whatever the request mode, with the response fetched at install.
   */
  lemma OfflineAfterInstall(s: CacheStorage, net: string -> NetResult, i: nat, mode: string)
    requires s.Valid()
    requires forall k :: 0 <= k < |ASSETS| ==> FetchedOk(net(ASSETS[k]))
    requires i < |ASSETS|
    ensures var active := Activate(Install(s, net).storage);
      OnFetch(active, Request(ASSETS[i], "GET", mode), NetworkError).response == Some(net(ASSETS[i]).response)
  {
    MatchAfterActivate(Install(s, net).storage, ASSETS[i]);
  }

  /** While offline, a navigation to a page that was never cached falls back to the cached root document. */
  lemma OfflineNavigation(s: CacheStorage, url: string)
    requires s.Valid()
    requires forall n :: n in s.entries ==> url !in s.entries[n]
    ensures OnFetch(s, Request(url, "GET", "navigate"), NetworkError).response == MatchUrl(s, OFFLINE_PAGE)
    ensures OnFetch(s, Request(url, "GET", "no-cors"), NetworkError).response == None
  {
  }
}

=== FILE: sw_notifications.dfy ===
/**
 The notification side of js/sw.js: the `push` handler that turns a push
 message into a system notification, and the `notificationclick` handler that
 decides which window to bring forward.
 */
module WorkerNotifications {
  import opened Wrappers

  /** Icon and badge used when the message names none. */
  const DEFAULT_ICON: string := "/icons/icon-192x192.png"
  /** Target URL used when the message names none. */
  const DEFAULT_URL: string := "/"
  const VIBRATE: seq<int> := [100, 50, 100]

  datatype Action = Action(action: string, title: string)

  /** The two buttons every notification carries. */
  const ACTIONS: seq<Action> := [Action("open", "Open TaskWave"), Action("close", "Close")]

  /** The optional `data` object of a push message. */
  datatype PushLinks = PushLinks(url: Option<string>, taskId: Option<int>)

  /** A parsed push message; absent fields are `None`. */
  datatype PushMessage = PushMessage(
    title: Option<string>,
    body: Option<string>,
    icon: Option<string>,
    badge: Option<string>,
    data: Option<PushLinks>)

  /** `event.data`: missing, not parseable as JSON, or a parsed message. */
  datatype PushData = NoData | Malformed | Json(message: PushMessage)

  datatype Notification = Notification(
    title: Option<string>,
    body: Option<string>,
    icon: string,
    badge: string,
    vibrate: seq<int>,
    url: string,
    taskId: Option<int>,
    actions: seq<Action>)

  /** JavaScript's `v || fallback` on an optional string: the empty string counts as missing. */
  function Or(v: Option<string>, fallback: string): (r: string)
    ensures v.Some? && v.value != "" ==> r == v.value
    ensures v.None? || v.value == "" ==> r == fallback
  {
    if v.Some? && v.value != "" then v.value else fallback
  }

  /**
   The `push` handler: no data shows nothing, unparseable data throws before
   anything is shown, and a message shows exactly one notification.
   */
  function OnPush(ev: PushData): (r: Option<Notification>)
    ensures r.Some? <==> ev.Json?
    ensures ev.Json? ==>
      var m, n := ev.message, r.value;
      && n.title == m.title
      && n.body == m.body
      && n.icon == Or(m.icon, DEFAULT_ICON)
      && n.badge == Or(m.badge, DEFAULT_ICON)
      && n.url == (if m.data.Some? then Or(m.data.value.url, DEFAULT_URL) else DEFAULT_URL)
      && n.taskId == (if m.data.Some? then m.data.value.taskId else None)
      && n.actions == ACTIONS
  {
    match ev
    case NoData => None
    case Malformed => None
    case Json(m) =>
      var links := m.data.GetOr(PushLinks(None, None));
      Some(Notification(
        m.title,
        m.body,
        Or(m.icon, DEFAULT_ICON),
        Or(m.badge, DEFAULT_ICON),
        VIBRATE,
        Or(links.url, DEFAULT_URL),
        links.taskId,
        ACTIONS))
  }

  /** Every notification shown has a usable icon, badge and target, and offers open then close. */
  lemma PushNotificationComplete(ev: PushData)
    requires ev.Json?
    ensures var n := OnPush(ev).value;
      n.icon != "" && n.badge != "" && n.url != ""
      && |n.actions| == 2 && n.actions[0].action == "open" && n.actions[1].action == "close"
  {
  }

  /** An open browser window and whether it has focus. */
  datatype Client = Client(url: string, focused: bool)

  /** The effect of a click; the notification itself is always closed. */
  datatype ClickEffect = CloseOnly | FocusClient(index: nat) | OpenWindow(url: string)

  /**
   The client chosen by the loop of the click handler: the last focused one in
   list order, or the first when none has focus.
   */
  method PickClient(clients: seq<Client>) returns (k: nat)
    requires |clients| > 0
    ensures k < |clients|
    ensures (exists i :: 0 <= i < |clients| && clients[i].focused) ==>
      clients[k].focused && forall j :: k < j < |clients| ==> !clients[j].focused
    ensures (forall i :: 0 <= i < |clients| ==> !clients[i].focused) ==> k == 0
  {
    k := 0;
    var i := 0;
    while i < |clients|
      invariant 0 <= i <= |clients|
      invariant k < |clients|
      invariant (exists j :: 0 <= j < i && clients[j].focused) ==>
        clients[k].focused && k < i && forall j :: k < j < i ==> !clients[j].focused
      invariant (forall j :: 0 <= j < i ==> !clients[j].focused) ==> k == 0
    {
      if clients[i].focused {
        k := i;
      }
      i := i + 1;
    }
  }

  /**
   The `notificationclick` handler. The `"open"` action or a click on the body
   (empty action) focuses a window, or opens the notification's URL when there is
   none; any other action only closes the notification.
   */
  method OnNotificationClick(n: Notification, action: string, clients: seq<Client>) returns (e: ClickEffect)
    ensures action != "open" && action != "" ==> e == CloseOnly
    ensures (action == "open" || action == "") && |clients| == 0 ==> e == OpenWindow(n.url)
    ensures (action == "open" || action == "") && |clients| > 0 ==>
      && e.FocusClient?
      && e.index < |clients|
      && ((exists i :: 0 <= i < |clients| && clients[i].focused) ==>
            clients[e.index].focused && forall j :: e.index < j < |clients| ==> !clients[j].focused)
      && ((forall i :: 0 <= i < |clients| ==> !clients[i].focused) ==> e.index == 0)
  {
    if action == "open" || action == "" {
      if |clients| > 0 {
        var k := PickClient(clients);
        e := FocusClient(k);
      } else {
        e := OpenWindow(n.url);
      }
    } else {
      e := CloseOnly;
    }
  }
}

=== FILE: task_app.dfy ===
/**
 The page as a state machine: the in-memory list, the `tasks` slot of local
 storage, and the active filter. Each user action is one `Command`; every
 mutation is followed by `saveTasks`, which writes the whole list to storage.
 */
module TaskApp {
  import opened Wrappers
  import opened TaskStore
  import opened TaskViews

  datatype App = App(tasks: seq<Task>, saved: Option<seq<Task>>, filter: string)

  datatype Command =
    | Add(text: string, deadline: int, idStamp: int, createdStamp: int)
    | Edit(id: int, text: string, deadline: int)
    | Delete(id: int)
    | Toggle(id: int)
    | ChooseFilter(filter: string)

  /** Storage holds exactly the in-memory list. */
  predicate Synced(app: App) {
    app.saved == Some(app.tasks)
  }

  /** The constructor: the stored list if there is one, otherwise the empty list; the filter starts at "all". */
  function Start(stored: Option<seq<Task>>): (app: App)
    ensures stored.Some? ==> Synced(app) && app.tasks == stored.value
    ensures stored.None? ==> app.tasks == [] && app.saved == None
    ensures app.filter == "all"
  {
    App(stored.GetOr([]), stored, "all")
  }

  /** One user action, followed by `saveTasks` when the handler calls it. */
  function Step(app: App, cmd: Command): (r: App)
    ensures cmd.Add? || cmd.Delete? || ((cmd.Edit? || cmd.Toggle?) && !Absent(app.tasks, cmd.id)) ==> Synced(r)
    ensures Synced(app) ==> Synced(r)
    ensures cmd.ChooseFilter? ==> r == app.(filter := cmd.filter)
    ensures !cmd.ChooseFilter? ==> r.filter == app.filter
    ensures (cmd.Edit? || cmd.Toggle?) && Absent(app.tasks, cmd.id) ==> r == app
    ensures cmd.Add? ==> r.tasks == AddTask(app.tasks, cmd.text, cmd.deadline, cmd.idStamp, cmd.createdStamp)
    ensures cmd.Delete? ==> r.tasks == DeleteTask(app.tasks, cmd.id)
    ensures cmd.Edit? ==> r.tasks == EditSubmit(app.tasks, cmd.id, cmd.text, cmd.deadline)
    ensures cmd.Toggle? ==> r.tasks == ToggleComplete(app.tasks, cmd.id)
  {
    match cmd
    case Add(text, deadline, idStamp, createdStamp) =>
      Save(app.(tasks := AddTask(app.tasks, text, deadline, idStamp, createdStamp)))
    case Edit(id, text, deadline) =>
      if Absent(app.tasks, id) then app
      else Save(app.(tasks := EditSubmit(app.tasks, id, text, deadline)))
    case Delete(id) =>
      Save(app.(tasks := DeleteTask(app.tasks, id)))
    case Toggle(id) =>
      if Absent(app.tasks, id) then app
      else Save(app.(tasks := ToggleComplete(app.tasks, id)))
    case ChooseFilter(filter) =>
      app.(filter := filter)
  }

  function Save(app: App): App {
    app.(saved := Some(app.tasks))
  }

  /** What `renderTasks` lists. */
  function Visible(app: App): seq<Task> {
    FilterView(app.tasks, app.filter)
  }

  /**
   Choosing a filter re-renders the unchanged list through the chosen view, and
   every later mutation is shown through that same view.
   */
  lemma ChooseFilterShowsView(app: App, f: string, cmd: Command)
    ensures Visible(Step(app, ChooseFilter(f))) == FilterView(app.tasks, f)
    ensures !cmd.ChooseFilter? ==> Visible(Step(app, cmd)) == FilterView(Step(app, cmd).tasks, app.filter)
  {
  }

  /** Unique identifiers survive every action, provided a new task's clock reading is fresh. */
  lemma StepKeepsUnique(app: App, cmd: Command)
    requires UniqueIds(app.tasks)
    requires cmd.Add? ==> Absent(app.tasks, cmd.idStamp)
    ensures UniqueIds(Step(app, cmd).tasks)
  {
    match cmd
    case Add(text, deadline, idStamp, createdStamp) =>
      AddKeepsUnique(app.tasks, text, deadline, idStamp, createdStamp);
    case Edit(id, text, deadline) =>
      MutationsKeepUnique(app.tasks, id, text, deadline);
    case Delete(id) =>
      MutationsKeepUnique(app.tasks, id, "", 0);
    case Toggle(id) =>
      MutationsKeepUnique(app.tasks, id, "", 0);
    case ChooseFilter(_) =>
  }

  /** After any action the counters still add up and the storage slot reflects the list. */
  lemma StepKeepsCounters(app: App, cmd: Command)
    requires Synced(app)
    ensures var r := Step(app, cmd);
      var s := ComputeStats(r.tasks);
      Synced(r) && s.total == s.completed + s.pending && s.completed <= s.total
      && |FilterView(r.tasks, "completed")| + |FilterView(r.tasks, "pending")| == |r.tasks|
  {
    ViewsPartition(Step(app, cmd).tasks);
  }
}

=== FILE: task_store.dfy ===
/**
 The task list of the TaskWave page (class `TaskWave` in js/app.js) and the four
 operations that change it: add, edit-submit, delete and toggle-complete.
 Clock readings (`Date.now()`) and parsed deadlines are passed in as integers of
 milliseconds.
 */
module TaskStore {
  import opened Wrappers
  import Seqs

  datatype Task = Task(id: int, text: string, deadline: int, completed: bool, created: int)

  /** Task identifiers are pairwise distinct. */
  ghost predicate UniqueIds(ts: seq<Task>) {
    forall i, j :: 0 <= i < j < |ts| ==> ts[i].id != ts[j].id
  }

  /** No task has identifier `id`. */
  predicate Absent(ts: seq<Task>, id: int) {
    forall i :: 0 <= i < |ts| ==> ts[i].id != id
  }

  /** `i` is the position `Array.prototype.find` settles on when looking for `id`. */
  ghost predicate FirstWithId(ts: seq<Task>, id: int, i: int) {
    0 <= i < |ts| && ts[i].id == id && forall j :: 0 <= j < i ==> ts[j].id != id
  }

  /** The index of the first task with identifier `id`, if any. */
  function FindIndex(ts: seq<Task>, id: int): (r: Option<nat>)
    ensures r.Some? ==> FirstWithId(ts, id, r.value)
    ensures r.None? <==> Absent(ts, id)
  {
    if |ts| == 0 then None
    else if ts[0].id == id then Some(0)
    else match FindIndex(ts[1..], id)
      case None => None
      case Some(i) => Some(i + 1)
  }

  /**
   `handleTaskSubmit`: a new incomplete task is pushed at the end. `idStamp` and
   `createdStamp` are the two clock readings the handler takes.
   */
  function AddTask(ts: seq<Task>, text: string, deadline: int, idStamp: int, createdStamp: int): (r: seq<Task>)
    ensures |r| == |ts| + 1
    ensures r[..|ts|] == ts
    ensures !r[|ts|].completed
    ensures r[|ts|].id == idStamp && r[|ts|].created == createdStamp
    ensures r[|ts|].text == text && r[|ts|].deadline == deadline
  {
    ts + [Task(idStamp, text, deadline, false, createdStamp)]
  }

  /**
   The submit closure installed by `editTask`: the first task with identifier `id`
   gets the new text and deadline; an absent identifier opens no editor and
   changes nothing.
   */
  function EditSubmit(ts: seq<Task>, id: int, text: string, deadline: int): (r: seq<Task>)
    ensures |r| == |ts|
    ensures forall i :: 0 <= i < |ts| ==>
      r[i].id == ts[i].id && r[i].completed == ts[i].completed && r[i].created == ts[i].created
    ensures forall i :: FirstWithId(ts, id, i) ==> r[i].text == text && r[i].deadline == deadline
    ensures forall i :: 0 <= i < |ts| && !FirstWithId(ts, id, i) ==> r[i] == ts[i]
    ensures Absent(ts, id) ==> r == ts
  {
    match FindIndex(ts, id)
    case None => ts
    case Some(i) => ts[i := ts[i].(text := text, deadline := deadline)]
  }

  /** The predicate of `deleteTask`'s filter. */
  function IdIsNot(id: int): Task -> bool {
    (t: Task) => t.id != id
  }

  /** `deleteTask`: keeps exactly the tasks whose identifier differs from `id`. */
  function DeleteTask(ts: seq<Task>, id: int): (r: seq<Task>)
    ensures forall i :: 0 <= i < |r| ==> r[i].id != id && r[i] in ts
    ensures forall i :: 0 <= i < |ts| && ts[i].id != id ==> ts[i] in r
    ensures Absent(ts, id) ==> r == ts
  {
    if Absent(ts, id) then
      Seqs.FilterKeepsAll(ts, IdIsNot(id));
      Seqs.Filter(ts, IdIsNot(id))
    else
      Seqs.Filter(ts, IdIsNot(id))
  }

  /** `toggleComplete`: flips `completed` of the first task with identifier `id`, and nothing else. */
  function ToggleComplete(ts: seq<Task>, id: int): (r: seq<Task>)
    ensures |r| == |ts|
    ensures forall i :: 0 <= i < |ts| ==>
      r[i].id == ts[i].id && r[i].text == ts[i].text && r[i].deadline == ts[i].deadline && r[i].created == ts[i].created
    ensures forall i :: 0 <= i < |ts| ==> (r[i].completed != ts[i].completed <==> FirstWithId(ts, id, i))
    ensures Absent(ts, id) ==> r == ts
  {
    match FindIndex(ts, id)
    case None => ts
    case Some(i) => ts[i := ts[i].(completed := !ts[i].completed)]
  }

  /** Deletion distributes over concatenation, so the survivors keep their relative order. */
  lemma DeleteKeepsOrder(a: seq<Task>, b: seq<Task>, id: int)
    ensures DeleteTask(a + b, id) == DeleteTask(a, id) + DeleteTask(b, id)
    ensures DeleteTask([], id) == []
    ensures forall t :: DeleteTask([t], id) == (if t.id == id then [] else [t])
  {
    Seqs.FilterConcat(a, b, IdIsNot(id));
    forall t ensures DeleteTask([t], id) == (if t.id == id then [] else [t]) {
      Seqs.FilterSingleton(t, IdIsNot(id));
    }
  }

  /** With unique identifiers, deleting a present identifier removes exactly one task. */
  lemma {:induction false} DeleteRemovesOne(ts: seq<Task>, id: int)
    requires UniqueIds(ts)
    requires !Absent(ts, id)
    ensures |DeleteTask(ts, id)| == |ts| - 1
  {
    var rest := ts[1..];
    assert UniqueIds(rest) by {
      forall i, j | 0 <= i < j < |rest| ensures rest[i].id != rest[j].id {
        assert rest[i] == ts[i + 1] && rest[j] == ts[j + 1];
      }
    }
    if ts[0].id == id {
      assert Absent(rest, id) by {
        forall j | 0 <= j < |rest| ensures rest[j].id != id {
          assert rest[j] == ts[j + 1];
        }
      }
      assert DeleteTask(rest, id) == rest;
    } else {
      DeleteRemovesOne(rest, id);
    }
  }

  /** Deleting the identifier of a freshly added task undoes the addition. */
  lemma AddThenDelete(ts: seq<Task>, text: string, deadline: int, idStamp: int, createdStamp: int)
    requires Absent(ts, idStamp)
    ensures DeleteTask(AddTask(ts, text, deadline, idStamp, createdStamp), idStamp) == ts
  {
    var t := Task(idStamp, text, deadline, false, createdStamp);
    DeleteKeepsOrder(ts, [t], idStamp);
  }

  /** Adding with a fresh clock reading keeps identifiers unique. */
  lemma AddKeepsUnique(ts: seq<Task>, text: string, deadline: int, idStamp: int, createdStamp: int)
    requires UniqueIds(ts)
    requires Absent(ts, idStamp)
    ensures UniqueIds(AddTask(ts, text, deadline, idStamp, createdStamp))
  {
    var r := AddTask(ts, text, deadline, idStamp, createdStamp);
    forall i, j | 0 <= i < j < |r| ensures r[i].id != r[j].id {
      if j < |ts| {
        assert r[i] == ts[i] && r[j] == ts[j];
      } else {
        assert r[i] == ts[i];
      }
    }
  }

  /** Deletion, editing and toggling keep identifiers unique. */
  lemma MutationsKeepUnique(ts: seq<Task>, id: int, text: string, deadline: int)
    requires UniqueIds(ts)
    ensures UniqueIds(DeleteTask(ts, id))
    ensures UniqueIds(EditSubmit(ts, id, text, deadline))
    ensures UniqueIds(ToggleComplete(ts, id))
  {
    var d := DeleteTask(ts, id);
    Seqs.FilterDistinct(ts, IdIsNot(id));
    assert Seqs.Distinct(Seqs.Filter(ts, IdIsNot(id)));
    forall i, j | 0 <= i < j < |d| ensures d[i].id != d[j].id {
      var a :| 0 <= a < |ts| && ts[a] == d[i];
      var b :| 0 <= b < |ts| && ts[b] == d[j];
      assert d[i] != d[j];
    }
  }

  /** Toggling the same identifier twice restores the list. */
  lemma ToggleTwice(ts: seq<Task>, id: int)
    ensures ToggleComplete(ToggleComplete(ts, id), id) == ts
  {
    var once := ToggleComplete(ts, id);
    match FindIndex(ts, id)
    case None =>
    case Some(i) =>
      assert FindIndex(once, id) == Some(i) by {
        assert FirstWithId(once, id, i);
      }
  }

  /** Editing twice with the same values is the same as editing once. */
  lemma EditIdempotent(ts: seq<Task>, id: int, text: string, deadline: int)
    ensures EditSubmit(EditSubmit(ts, id, text, deadline), id, text, deadline) == EditSubmit(ts, id, text, deadline)
  {
    var once := EditSubmit(ts, id, text, deadline);
    match FindIndex(ts, id)
    case None =>
    case Some(i) =>
      assert FindIndex(once, id) == Some(i) by {
        assert FirstWithId(once, id, i);
      }
  }
}

=== FILE: task_views.dfy ===
/**
 The derived views of the task list in js/app.js: the completed/pending/all
 filter of `handleFilter` and `renderTasks`, the counters of `updateStats`, the
 "urgent" marking of `renderFilteredTasks` and the reminder poll `checkReminders`.
 */
module TaskViews {
  import opened TaskStore
  import opened Durations
  import Seqs

  function Done(t: Task): bool { t.completed }
  function NotDone(t: Task): bool { !t.completed }

  function CompletedTasks(ts: seq<Task>): seq<Task> { Seqs.Filter(ts, Done) }
  function PendingTasks(ts: seq<Task>): seq<Task> { Seqs.Filter(ts, NotDone) }

  /** The list shown for the active filter value; any value other than the two names shows everything. */
  function FilterView(ts: seq<Task>, filter: string): (r: seq<Task>)
    ensures filter == "completed" ==>
      (forall i :: 0 <= i < |r| ==> r[i].completed && r[i] in ts)
      && (forall i :: 0 <= i < |ts| && ts[i].completed ==> ts[i] in r)
    ensures filter == "pending" ==>
      (forall i :: 0 <= i < |r| ==> !r[i].completed && r[i] in ts)
      && (forall i :: 0 <= i < |ts| && !ts[i].completed ==> ts[i] in r)
    ensures filter != "completed" && filter != "pending" ==> r == ts
  {
    if filter == "completed" then CompletedTasks(ts)
    else if filter == "pending" then PendingTasks(ts)
    else ts
  }

  /** The completed and pending views split the list. */
  lemma ViewsPartition(ts: seq<Task>)
    ensures multiset(FilterView(ts, "completed")) + multiset(FilterView(ts, "pending")) == multiset(ts)
    ensures |FilterView(ts, "completed")| + |FilterView(ts, "pending")| == |ts|
  {
    Seqs.FilterPartition(ts, Done, NotDone);
  }

  /** Every view distributes over concatenation, so it keeps the relative order of the tasks it shows. */
  lemma ViewKeepsOrder(a: seq<Task>, b: seq<Task>, filter: string)
    ensures FilterView(a + b, filter) == FilterView(a, filter) + FilterView(b, filter)
  {
    Seqs.FilterConcat(a, b, Done);
    Seqs.FilterConcat(a, b, NotDone);
  }

  datatype Stats = Stats(total: nat, pending: int, completed: nat)

  /** `updateStats`: the three counters shown above the list. */
  function ComputeStats(ts: seq<Task>): (s: Stats)
    ensures s.total == |ts|
    ensures s.completed <= s.total
    ensures s.total == s.completed + s.pending
    ensures s.completed == |FilterView(ts, "completed")|
    ensures s.pending == |FilterView(ts, "pending")|
  {
    Seqs.FilterPartition(ts, Done, NotDone);
    var completed := |CompletedTasks(ts)|;
    Stats(|ts|, |ts| - completed, completed)
  }

  /** Adding a task raises the total and pending counters by one and leaves completed alone. */
  lemma StatsAfterAdd(ts: seq<Task>, text: string, deadline: int, idStamp: int, createdStamp: int)
    ensures var before, after := ComputeStats(ts), ComputeStats(AddTask(ts, text, deadline, idStamp, createdStamp));
      after.total == before.total + 1 && after.pending == before.pending + 1 && after.completed == before.completed
  {
    var t := Task(idStamp, text, deadline, false, createdStamp);
    Seqs.FilterConcat(ts, [t], Done);
    Seqs.FilterSingleton(t, Done);
  }

  /** Toggling a present task moves exactly one task between the completed and pending counters. */
  lemma StatsAfterToggle(ts: seq<Task>, id: int)
    requires !Absent(ts, id)
    ensures var before, after := ComputeStats(ts), ComputeStats(ToggleComplete(ts, id));
      var wasDone := ts[FindIndex(ts, id).value].completed;
      after.total == before.total
      && after.completed == before.completed + (if wasDone then -1 else 1)
      && after.pending == before.pending - (if wasDone then -1 else 1)
  {
    var i := FindIndex(ts, id).value;
    var t := ts[i].(completed := !ts[i].completed);
    assert ToggleComplete(ts, id) == ts[i := t];
    SplitAround(ts, i, t);
    CountAround(ts[..i], ts[i], ts[i + 1..]);
    CountAround(ts[..i], t, ts[i + 1..]);
  }

  lemma SplitAround(ts: seq<Task>, i: nat, t: Task)
    requires i < |ts|
    ensures ts == ts[..i] + [ts[i]] + ts[i + 1..]
    ensures ts[i := t] == ts[..i] + [t] + ts[i + 1..]
  {
  }

  /** The completed count of a list split around one task. */
  lemma CountAround(prefix: seq<Task>, t: Task, suffix: seq<Task>)
    ensures |CompletedTasks(prefix + [t] + suffix)|
      == |CompletedTasks(prefix)| + (if t.completed then 1 else 0) + |CompletedTasks(suffix)|
  {
    Seqs.FilterConcat(prefix + [t], suffix, Done);
    Seqs.FilterConcat(prefix, [t], Done);
    Seqs.FilterSingleton(t, Done);
  }

  /**
   The marking of `renderFilteredTasks`: incomplete and due within a day,
   overdue included. It covers every task a poll reminds about and every
   overdue one, and no completed task or task more than a day away.
   */
  function Urgent(t: Task, now: int): (b: bool)
    ensures RemindNow(t, now) ==> b
    ensures !t.completed && t.deadline <= now ==> b
    ensures t.completed || t.deadline - now > DAY_MS ==> !b
  {
    !t.completed && t.deadline - now <= DAY_MS
  }

  /** The test of `checkReminders`: incomplete, a non-zero deadline, due within the next day but not yet past. */
  predicate RemindNow(t: Task, now: int) {
    !t.completed && t.deadline != 0 && t.deadline - now <= DAY_MS && t.deadline - now > 0
  }

  function RemindAt(now: int): Task -> bool {
    t => RemindNow(t, now)
  }

  /** The tasks a poll at time `now` shows a reminder for, in list order. */
  function DueReminders(ts: seq<Task>, now: int): (r: seq<Task>)
    ensures forall i :: 0 <= i < |r| ==> r[i] in ts && RemindNow(r[i], now)
    ensures forall i :: 0 <= i < |ts| && RemindNow(ts[i], now) ==> ts[i] in r
  {
    Seqs.Filter(ts, RemindAt(now))
  }

  /**
   `checkReminders`: walks the list once and reports, in order, every task it
   calls `showNotification` for. No record of earlier polls is kept.
   */
  method CheckReminders(ts: seq<Task>, now: int) returns (shown: seq<Task>)
    ensures shown == DueReminders(ts, now)
  {
    shown := [];
    var i := 0;
    while i < |ts|
      invariant 0 <= i <= |ts|
      invariant shown == DueReminders(ts[..i], now)
    {
      var t := ts[i];
      assert ts[..i + 1] == ts[..i] + [t];
      Seqs.FilterConcat(ts[..i], [t], RemindAt(now));
      Seqs.FilterSingleton(t, RemindAt(now));
      if !t.completed && t.deadline != 0 {
        var timeUntilDeadline := t.deadline - now;
        if timeUntilDeadline <= DAY_MS && timeUntilDeadline > 0 {
          shown := shown + [t];
        }
      }
      i := i + 1;
    }
    assert ts[..i] == ts;
  }

  /** Every task a poll reminds about is also marked urgent. */
  lemma RemindedAreUrgent(ts: seq<Task>, now: int)
    ensures forall i :: 0 <= i < |DueReminders(ts, now)| ==> Urgent(DueReminders(ts, now)[i], now)
  {
  }

  /** Overdue incomplete tasks are urgent but never reminded about, so urgency is strictly wider. */
  lemma OverdueUrgentNotReminded(t: Task, now: int)
    requires !t.completed && t.deadline <= now
    ensures Urgent(t, now) && !RemindNow(t, now)
  {
  }

  /**
   With no suppression state, a task a poll reminds about is reminded about
   again by every later poll until its deadline passes: once a minute.
   */
  lemma ReminderRefires(ts: seq<Task>, t: Task, now: int, polls: nat)
    requires t in DueReminders(ts, now)
    requires now + polls * POLL_MS < t.deadline
    ensures t in DueReminders(ts, now + polls * POLL_MS)
  {
    var due := DueReminders(ts, now);
    var j :| 0 <= j < |due| && due[j] == t;
    var i :| 0 <= i < |ts| && ts[i] == t;
    assert RemindNow(ts[i], now + polls * POLL_MS);
  }
}

=== FILE: wrappers.dfy ===
/** Optional values: JavaScript's `undefined` (or a missing field) is `None`. */
module Wrappers {

  datatype Option<+T> = None | Some(value: T) {

    /** The value, or `default` when there is none. */
    function GetOr(default: T): T {
      match this
      case Some(v) => v
      case None => default
    }
  }
}
